=== FILE: README.md ===
# Cached: a verified model of a TTL file cache

This project models the Swift library *Cached*. The library is a
read-through/write-through cache. Each value is stored as JSON on disk
under a caller-chosen key, and expiry is lazy: it is checked on every read.

It has four pieces:

- `TTL` is a symbolic duration (`infinite`, `seconds(n)` … `months(n)`).
  Its `interval` gives the duration in seconds. `infinite` is 0, and a
  month is exactly four weeks.
- `CacheMeta` records `expires`, `ttl` and a `valueType` tag.
  - A positive TTL expires `ttl` seconds after creation.
  - Any other TTL gets epoch zero, the "never expire" sentinel.
- `Cache` keeps two files per key in the cache directory: `<key>.json`
  holds the value and `<key>.cache` holds the metadata.
  - `create` removes the old value file, rewrites the metadata, then
    writes the value.
  - `read` first purges the key if its metadata says it is stale, then
    decodes the value file.
  - Every failure reads as "absent".
- `Cached` is a property wrapper. It fixes a key, a default value and a TTL
  when it is built. Its getter returns the stored value, or the default on
  a miss. Its setter writes through with the fixed TTL.

The Dafny modules follow these pieces:

| file | module | models |
|---|---|---|
| `serialization.dfy` | `Serialization` | `Encodable.data` and `Data.decode`, as a `Codec` of two partial functions |
| `ttl.dfy` | `TimeToLive` | `TTL` and `interval`, including Swift's overflow trap |
| `meta.dfy` | `Metadata` | `CacheMeta` and `init(ttl:value:)` |
| `store.dfy` | `Store` | class `Cache` over a disk modelled as `map<string, Bytes>`, including the purge guard that decides staleness |
| `accessor.dfy` | `Accessor` | `Cached`'s `init` and its `wrappedValue` getter and setter |

## How the world is abstracted

- **The disk** is a `map<string, Bytes>` from path to contents. The cache
  directory is a fixed path prefix, `Cache.directory`.
  - `contents(atPath:)` is a map lookup.
  - `removeItem` is a deletion.
  - `createFile` stores its contents. A `nil` payload stores an empty
    file.
- **File writes may fail.** The outcome of the two `createFile` calls in
  one `create` comes from an oracle parameter, `WriteOutcomes`.
- **The clock** is an integer parameter `now`, in seconds since 1970.
- **JSON** is a `Codec<T>`. It pairs an encoder `T -> Option<Bytes>` with
  a decoder `Bytes -> Option<T>`, and it carries the type name that
  `String(describing:)` would print. The cache relies on a few stated
  assumptions and nothing else:
  - `Lawful(codec)`: whatever encodes decodes back to itself, and an empty
    file does not decode (JSON has no empty document).
  - `Store.WellFormed(c)`: the `CacheMeta` codec is lawful, and every
    metadata record encodes.
- **Swift's `Int`** is taken to be 64 bits wide, as on 64-bit platforms.
  `TTL.interval` returns `None` exactly where one of its left-to-right
  products would overflow and trap.
  `Accessor.Init` requires the interval to exist, because otherwise the
  source crashes.

Two behaviours of the code are easy to miss, and the model keeps both:

- **Purge guard.** Epoch zero is the "never expire" sentinel, but the
  guard is `expires.timeIntervalSince1970 > 0`. So any expiry at or before
  1970 is treated as "never". A positive TTL whose end falls before 1970
  is therefore never purged (`Store.PreEpochExpiryNeverPurges`).
- **Write order in `create`.** The code first deletes the old value file,
  then rewrites the metadata, then writes the value. Nothing is rolled
  back. So after a failed value write, the old value is gone and the new
  metadata is in place (`Store.FailedValueWrite`).

## Model

| member | source | states |
|---|---|---|
| `Serialization.Lawful` | Sources/Cached/Helpers.swift:10-20 | The assumption about `data` and `decode`: whatever encodes decodes back to itself, and empty data does not decode. Its stated consequence is that a successful encoding is never empty, so it is never confused with the empty file a failed encoding leaves. |
| `TimeToLive.Interval` | Sources/Cached/TTL.swift:19-35 | The chain of trapping `Int` products succeeds exactly when count × seconds-per-unit fits in 64 bits. It then yields that many seconds: 1, 60, 3600, 86400, 604800 or 2419200 per unit, and 0 for `infinite`. |
| `TimeToLive.Times` | Sources/Cached/TTL.swift:26-34 | Swift's trapping `*`: a trap earlier in the chain propagates. The product succeeds exactly when it fits in an `Int`, and then it is the exact product. |
| `TimeToLive.InfiniteIsZero` | Sources/Cached/TTL.swift:21-22 | `infinite` is 0 seconds. |
| `TimeToLive.IntervalOfEachVariant` | Sources/Cached/TTL.swift:23-34 | `seconds(n)` is n. `minutes(n)` is 60n, `hours(n)` is 3600n, `days(n)` is 86400n, `weeks(n)` is 604800n and `months(n)` is 2419200n, whenever the product fits in an `Int`. |
| `TimeToLive.WeeksAndMonths` | Sources/Cached/TTL.swift:29-34 | A week is 7 days and a month is 4 weeks, so a month is 28 days, not a calendar month. When the longer unit does not trap, the shorter one does not trap either. |
| `TimeToLive.ThirtyMinutes` | Sources/Cached/TTL.swift:25-26 | `minutes(30)` is 1800 seconds. |
| `TimeToLive.MonthsOverflow` | Sources/Cached/TTL.swift:33-34 | `months(n)` succeeds exactly when `-(Int.max / 2419200) <= n <= Int.max / 2419200`, that is, within 3812571113117 months of zero. A count beyond either bound traps, negative counts included. |
| `TimeToLive.IntervalNonNegative` | Sources/Cached/TTL.swift:19-35 | A count of at least 0 gives an interval of at least 0. |
| `TimeToLive.IntervalZeroIff` | Sources/Cached/TTL.swift:19-35 | The interval is 0 if and only if the TTL is `infinite` or its count is 0. |
| `TimeToLive.IntervalMonotone` | Sources/Cached/TTL.swift:19-35 | Within one unit, a larger count never gives a shorter interval. |
| `Metadata.Init` | Sources/Cached/Meta.swift:15-19 | A positive TTL expires exactly `ttl` seconds after `now`. A TTL of zero or less gets the epoch-zero sentinel. The TTL is stored unchanged, and the type tag is the codec's type name. |
| `Store.ExpiredIff` | Sources/Cached/Meta.swift:16 | Fresh metadata is stale at a later time if and only if its TTL was positive, its end is after 1970, and its end is strictly before that time. |
| `Store.NonPositiveTtlNeverExpires` | Sources/Cached/Meta.swift:16 | Metadata from a TTL of zero or less, including `infinite`'s 0, is never stale at any time. |
| `Metadata.ValueTypeIgnoresValue` | Sources/Cached/Meta.swift:18 | Two values written with one codec produce identical metadata: `valueType` is the codec's type name and does not depend on the value. |
| `Store.Resolve` | Sources/Cached/Helpers.swift:39-41 | A resolved path starts with the cache directory, and the file name can be read back from the rest of it. |
| `Store.CreateFile` | Sources/Cached/Helpers.swift:67 | `createFile` changes only its own path. A failed write leaves the disk unchanged. A successful one stores the payload, or an empty file for a `nil` payload. |
| `Store.Expired` | Sources/Cached/Helpers.swift:52-56 | The purge guard: the expiry is after 1970 and strictly before now. So the epoch-zero sentinel is never expired, and an expiry equal to now is not expired yet. |
| `Store.NeverExpires` | Sources/Cached/Helpers.swift:52-54 | An expiry at or before 1970 is expired at no time. Any later expiry is expired one second after it. |
| `Store.Stale` | Sources/Cached/Helpers.swift:44-56 | A stale key has a metadata file that decodes to a record with a real expiry that is past. |
| `Store.StaleStaysStale` | Sources/Cached/Helpers.swift:52-56 | While a key's files are unchanged, a key stale at one time is stale at every later time. |
| `Store.FileNamesDistinct` | Sources/Cached/Helpers.swift:39-41 | `<key>.json` never equals any `<key'>.cache`. Each kind of file name determines its key, so two different keys share no path string. |
| `Store.PurgeStale` | Sources/Cached/Helpers.swift:43-60 | If the key is stale (metadata present, decodable, expiry after 1970 and before now), both of its files are removed. Otherwise the disk is returned unchanged. No other file changes in either case. |
| `Store.CreateMeta` | Sources/Cached/Helpers.swift:62-68 | Only the key's `.cache` file changes. It exists afterwards exactly when the write succeeded, and it then decodes to the fresh metadata. |
| `Store.Create` | Sources/Cached/Helpers.swift:73-80 | Returns whether the value write succeeded. Only the key's two files change. Each file exists exactly when its write succeeded. The value file holds the encoding, or is empty if encoding failed. The metadata decodes to the fresh record. |
| `Store.Read` | Sources/Cached/Helpers.swift:82-90 | The disk afterwards is the purged disk. A stale key reads absent. Otherwise the result is the decoded value file, and a missing or undecodable file reads absent. |
| `Store.PurgeRemovesIffExpired` | Sources/Cached/Helpers.swift:52-59 | With readable metadata, the purge removes the entry if and only if its expiry is after 1970 and strictly before now. An expiry equal to now is kept. |
| `Store.PurgeIdempotent` | Sources/Cached/Helpers.swift:43-60 | Purging twice at the same instant is the same as purging once. |
| `Store.ReadDependsOnOwnFiles` | Sources/Cached/Helpers.swift:82-90 | What `read` returns, and what it leaves in the key's files, depends only on those two files. |
| `Store.ValueTypeNeverConsulted` | Sources/Cached/Helpers.swift:48-59 | Two disks whose value files agree, and whose metadata share an expiry, read the same value. The type tag and the stored TTL play no part. |
| `Store.ReadIdempotent` | Sources/Cached/Helpers.swift:82-90 | A second read at the same instant returns the same value and leaves the same disk as the first. |
| `Store.FreshReadKeepsFiles` | Sources/Cached/Helpers.swift:82-90 | Reading a key that is not stale leaves the disk unchanged. |
| `Store.StaleAfterCreate` | Sources/Cached/Helpers.swift:62-80 | After `create`, the key is stale at a later time if and only if the metadata write succeeded and the fresh metadata has expired. |
| `Store.RoundTripNeverExpires` | Sources/Cached/Helpers.swift:73-90 | After a successful write with a TTL of zero or less, a read at any time returns the value written. |
| `Store.RoundTripWithinTtl` | Sources/Cached/Helpers.swift:73-90 | After a successful write with TTL t > 0 at time `now`, a read at any time up to and including `now + t` returns the value written. |
| `Store.ExpiredReadPurges` | Sources/Cached/Helpers.swift:56-59 | When the metadata write succeeded and `now + t` is after 1970, a read after `now + t` misses, and neither file of the key remains on disk. Without the metadata file, or with an end at or before 1970, the value survives instead (`Store.LostMetaPinsValue`, `Store.PreEpochExpiryNeverPurges`). |
| `Store.PreEpochExpiryNeverPurges` | Sources/Cached/Helpers.swift:52-54 | If a positive TTL ends at or before 1970, the value is never purged and reads back at any time. |
| `Store.LostMetaPinsValue` | Sources/Cached/Helpers.swift:62-80 | If the metadata write fails but the value write succeeds, the value reads back forever. |
| `Store.FailedValueWrite` | Sources/Cached/Helpers.swift:73-80 | If the value write fails, `create` returns false, the old value file is gone, and every later read misses. The new metadata is in place if the metadata write succeeded. |
| `Store.UnencodableValueReadsAbsent` | Sources/Cached/Helpers.swift:73-80 | An unencodable value still gets an empty value file and `create` reports success, yet every read misses. |
| `Store.Overwrite` | Sources/Cached/Helpers.swift:73-80 | After a second `create` on the same key, within its TTL, a read returns the second value, and the metadata is the second write's, with the second TTL. |
| `Store.CreateLeavesOtherKeys` | Sources/Cached/Helpers.swift:73-80 | `create` on one key leaves every other key's files, and what a read of that key returns, unchanged. |
| `Store.ReadLeavesOtherKeys` | Sources/Cached/Helpers.swift:82-90 | `read` on one key leaves every other key's files, and what a read of that key returns, unchanged. |
| `Accessor.Init` | Sources/Cached/Cached.swift:55-60 | The wrapper keeps its key, default and codec. Its TTL is the interval in seconds, computed once at construction. |
| `Accessor.InitDefault` | Sources/Cached/Cached.swift:55 | Without a TTL argument, the wrapper's TTL is 60 seconds. |
| `Accessor.Get` | Sources/Cached/Cached.swift:65-68 | Returns the stored value if `read` yields one, and the default otherwise. It never adds or rewrites a file. If the key is stale, both of its files are deleted. Otherwise the disk is left exactly as it was. |
| `Accessor.Set` | Sources/Cached/Cached.swift:69-72 | Changes only the key's two files. Each file exists afterwards exactly when its write succeeded, so an old metadata file never survives a failed metadata write. The value file holds the encoded value, and the metadata records the TTL captured at construction. |
| `Accessor.GetMissStoresNothing` | Sources/Cached/Cached.swift:65-68 | With no value file on disk, `get` returns the default and does not create a value file. |
| `Accessor.SetThenGetWithinTtl` | Sources/Cached/Cached.swift:64-73 | After a successful `set`, a `get` within the wrapper's TTL returns the value set. With a TTL of zero or less, this holds at any time. |
| `Accessor.SetThenGetAfterTtl` | Sources/Cached/Cached.swift:64-73 | When the metadata write succeeded and the TTL's end is after 1970, a `get` after the TTL runs out returns the default, and the key's files are gone. |
| `Accessor.InfiniteWrapperNeverExpires` | Sources/Cached/Cached.swift:55-57 | A wrapper built with `infinite` has TTL 0, and after a successful `set` a `get` at any later time returns the value set. |
| `Accessor.ArticlesScenario` | Sources/Cached/Cached.swift:39-40 | For the documented `articles` wrapper with `minutes(30)`, the TTL is 1800 s. A list set at `now` reads back at `now + 1800`, and one second later the default `[]` is returned. |

## Left out

- Real `FileManager` I/O and the choice of cache directory, including the
  `./` fallback, are left out. The directory is a fixed prefix, and key
  strings are not path-normalised: the source does not escape keys either.
- A failed `removeItem` is not modelled. In the model deletions always
  succeed, because the source ignores their errors and the common failure
  is "no such file", which a map deletion covers.
- The JSON encoder and decoder internals are left out. They are codecs
  whose only assumed property is `Lawful`.
- `Date` and `TimeInterval` floating-point arithmetic is left out. Time and
  intervals are whole seconds, so `Double(Int)` rounding above 2^53
  seconds is not modelled.
- `os_log` logging and the `OSLog` value are left out. They have no effect
  on behaviour.
- Concurrency is left out. The source has no synchronisation, so the model
  is sequential.
- The process-wide `Cache.shared` singleton is passed explicitly as a
  `Cache` value.
- TimeToLive.Interval: assumes a 64-bit `Int`. On 32-bit targets, products
  above 2^31 − 1 trap, for example `months(888)`; the model does not
  capture that lower bound.
- Store.FileNamesDistinct: file names are distinct as path strings only.
  The model does not cover two different path strings that the file system
  resolves to one file. Examples are case folding on a case-insensitive
  volume (`Articles.json` and `articles.json`), Unicode NFC and NFD
  spellings of one name (APFS, HFS+), repeated or leading `/` in a key
  joined by `appendingPathComponent`, and `.`/`..` components.
- Store.CreateLeavesOtherKeys: isolation between keys holds per path
  string. On a real volume two distinct keys can name one file through any
  of the aliasings listed for `Store.FileNamesDistinct`, and then they
  interfere.
- Store.ReadLeavesOtherKeys: isolation between keys holds per path string,
  with the same caveat about aliasing as `Store.CreateLeavesOtherKeys`.
- Metadata.ValueTypeIgnoresValue: the type tag is the codec's type name.
  The source tags with the value's dynamic type, so two values of a
  non-final class can get different tags there.
- Swift's `Codable` existential for `create`'s value is modelled as a type
  parameter with its own codec. A read may use a different codec than the
  write. Whether that read succeeds depends only on that codec, so no
  type-mismatch property is stated.

=== FILE: accessor.dfy ===
/** The `Cached` property wrapper of Cached.swift, as an explicit value with
    `Get` and `Set`.

    The wrapper fixes its key, default value and TTL (converted to seconds)
    once, at construction. Each `Get` reads through to the store and each
    `Set` writes through to it. The shared store, the disk, the clock and the
    outcome of the file writes are parameters here; logging is left out.
 */
module Accessor {
  import opened Serialization
  import opened TimeToLive
  import Metadata
  import opened Store

  datatype Cached<!T> = Cached(key: string, defaultValue: T, ttl: int, codec: Codec<T>)

  /** The TTL used when none is given. */
  const DefaultTtl: TTL := Seconds(60)

  /** The disk after a `get`, and the value it returns. */
  datatype Got<T> = Got(files: FileSystem, value: T)

  /** `Cached.init(key:defaultValue:ttl:)`: the interval is computed here,
      once; the source traps when it overflows. */
  function Init<T>(key: string, defaultValue: T, codec: Codec<T>, ttl: TTL): (r: Cached<T>)
    requires Interval(ttl).Some?
    ensures r.ttl == Count(ttl) * UnitSeconds(ttl)
    ensures r.key == key && r.defaultValue == defaultValue && r.codec == codec
  {
    Cached(key, defaultValue, Interval(ttl).value, codec)
  }

  /** `Cached.init(key:defaultValue:)` with the default TTL: sixty seconds. */
  function InitDefault<T>(key: string, defaultValue: T, codec: Codec<T>): (r: Cached<T>)
    ensures r.ttl == 60
    ensures r.key == key && r.defaultValue == defaultValue && r.codec == codec
  {
    Init(key, defaultValue, codec, DefaultTtl)
  }

  /** The getter of `wrappedValue`: the stored value when `read` yields one,
      else the default. It never writes: the disk can only lose the key's
      stale files, and a miss does not store the default. */
  function Get<T>(c: Cache, a: Cached<T>, fs: FileSystem, now: int): (r: Got<T>)
    ensures Read(c, fs, a.key, a.codec, now).value.Some? ==> r.value == Read(c, fs, a.key, a.codec, now).value.value
    ensures Read(c, fs, a.key, a.codec, now).value.None? ==> r.value == a.defaultValue
    ensures Stale(c, fs, a.key, now) ==> r.files == fs - Paths(c, a.key)
    ensures !Stale(c, fs, a.key, now) ==> r.files == fs
  {
    var result := Read(c, fs, a.key, a.codec, now);
    Got(result.files, result.value.GetOr(a.defaultValue))
  }

  /** The setter of `wrappedValue`: a `create` under the wrapper's key with
      the TTL fixed at construction; its `Bool` result is discarded. */
  function Set<T>(c: Cache, a: Cached<T>, fs: FileSystem, v: T, now: int, io: WriteOutcomes): (r: FileSystem)
    ensures UnchangedOutside(fs, r, Paths(c, a.key))
    ensures io.valueWritten <==> ValuePath(c, a.key) in r
    ensures io.metaWritten <==> MetaPath(c, a.key) in r
    ensures io.valueWritten ==> r[ValuePath(c, a.key)] == a.codec.encode(v).GetOr([])
    ensures WellFormed(c) && io.metaWritten ==> StoredMeta(c, r, a.key) == Some(Metadata.Init(a.ttl, v, a.codec, now))
  {
    Create(c, fs, a.key, v, a.codec, a.ttl, now, io).files
  }

  /** A miss leaves no file behind: reading a key with no value file
      creates none. */
  lemma GetMissStoresNothing<T>(c: Cache, a: Cached<T>, fs: FileSystem, now: int)
    requires ValuePath(c, a.key) !in fs
    ensures Get(c, a, fs, now).value == a.defaultValue
    ensures ValuePath(c, a.key) !in Get(c, a, fs, now).files
  {
  }

  /** After a successful `set`, a `get` within the TTL returns what was set
      (a wrapper built with `infinite` or a zero TTL never times out). */
  lemma SetThenGetWithinTtl<T(!new)>(c: Cache, a: Cached<T>, fs: FileSystem, v: T,
                                                        now: int, io: WriteOutcomes, later: int)
    requires WellFormed(c) && Lawful(a.codec)
    requires a.codec.encode(v).Some?
    requires io.valueWritten
    requires a.ttl <= 0 || later <= now + a.ttl
    ensures Get(c, a, Set(c, a, fs, v, now, io), later).value == v
  {
    if a.ttl <= 0 {
      RoundTripNeverExpires(c, fs, a.key, v, a.codec, a.ttl, now, io, later);
    } else {
      RoundTripWithinTtl(c, fs, a.key, v, a.codec, a.ttl, now, io, later);
    }
  }

  /** When the metadata was written and the TTL's end is after 1970, a `get`
      after the TTL has run out returns the default and the key's files are
      gone. */
  lemma SetThenGetAfterTtl<T>(c: Cache, a: Cached<T>, fs: FileSystem, v: T,
                                                 now: int, io: WriteOutcomes, later: int)
    requires WellFormed(c)
    requires io.metaWritten
    requires a.ttl > 0 && now + a.ttl > Metadata.Epoch && later > now + a.ttl
    ensures Get(c, a, Set(c, a, fs, v, now, io), later).value == a.defaultValue
    ensures Get(c, a, Set(c, a, fs, v, now, io), later).files.Keys !! Paths(c, a.key)
  {
    ExpiredReadPurges(c, fs, a.key, v, a.codec, a.ttl, now, io, later, a.codec);
  }

  /** A wrapper built with `infinite` has a zero TTL, so after a successful
      `set` every later `get`, however late, returns what was set. */
  lemma InfiniteWrapperNeverExpires<T(!new)>(c: Cache, key: string, defaultValue: T, codec: Codec<T>,
                                                                fs: FileSystem, v: T, now: int, io: WriteOutcomes, later: int)
    requires WellFormed(c) && Lawful(codec)
    requires codec.encode(v).Some?
    requires io.valueWritten
    ensures Init(key, defaultValue, codec, Infinite).ttl == 0
    ensures var a := Init(key, defaultValue, codec, Infinite);
            Get(c, a, Set(c, a, fs, v, now, io), later).value == v
  {
    var a := Init(key, defaultValue, codec, Infinite);
    SetThenGetWithinTtl(c, a, fs, v, now, io, later);
  }

  /** One article, as in the wrapper's documentation. */
  datatype Article = Article(title: string)

  /** The documented use: key "articles", default `[]`, thirty minutes.
      A list written at `now` reads back at `now + 1800` and is gone, with
      the default returned, one second later. */
  lemma ArticlesScenario(c: Cache, codec: Codec<seq<Article>>, fs: FileSystem, now: int)
    requires WellFormed(c) && Lawful(codec)
    requires codec.encode([Article("a")]).Some?
    requires now + 1800 > Metadata.Epoch
    ensures Init("articles", [], codec, Minutes(30)).ttl == 1800
    ensures var a := Init("articles", [], codec, Minutes(30));
            var written := Set(c, a, fs, [Article("a")], now, WriteOutcomes(true, true));
            && Get(c, a, written, now + 1800).value == [Article("a")]
            && Get(c, a, written, now + 1801).value == []
  {
    var a := Init("articles", [], codec, Minutes(30));
    var io := WriteOutcomes(true, true);
    SetThenGetWithinTtl(c, a, fs, [Article("a")], now, io, now + 1800);
    SetThenGetAfterTtl(c, a, fs, [Article("a")], now, io, now + 1801);
  }
}

=== FILE: meta.dfy ===
/** The metadata record of Meta.swift, written beside every cached value.

    Timestamps are whole seconds since 1970. The record's `expires` is epoch
    zero when the entry never expires. How the store reads `expires` is part
    of the store, next to its purge.
 */
module Metadata {
  import opened Serialization

  /** Epoch zero, the "never expire" timestamp. */
  const Epoch: int := 0

  datatype CacheMeta = CacheMeta(expires: int, ttl: int, valueType: string)

  /** `CacheMeta.init(ttl:value:)` at wall-clock time `now`: a positive
      TTL expires `ttl` seconds from now, any other TTL never does. The type
      tag comes from the value's type alone. */
  function Init<V>(ttl: int, value: V, codec: Codec<V>, now: int): (m: CacheMeta)
    ensures ttl > 0 ==> m.expires - now == ttl
    ensures ttl <= 0 ==> m.expires == Epoch
    ensures m.ttl == ttl
    ensures m.valueType == codec.typeName
  {
    CacheMeta(if ttl > 0 then now + ttl else Epoch, ttl, codec.typeName)
  }

  /** The type tag does not depend on the value: two values given with one
      codec get the same tag. This holds by construction, since the tag is
      the codec's type name. The source tags with the value's dynamic type,
      so two values of a non-final class can get different tags there. */
  lemma ValueTypeIgnoresValue<V>(ttl: int, v1: V, v2: V, codec: Codec<V>, now: int)
    ensures Init(ttl, v1, codec, now) == Init(ttl, v2, codec, now)
  {
  }
}

=== FILE: serialization.dfy ===
/** Byte payloads and the forgiving JSON adapters of Helpers.swift.

    The JSON format itself is not modelled. A codec is a pair of functions
    (`encode` may fail, `decode` may fail) plus the descriptive name of the
    Swift type it serves; every failure is an `Option.None`, which is how the
    `try?` wrappers turn thrown errors into `nil`. The single property the
    cache relies on is stated once, as the predicate `Lawful`, and every
    theorem that needs it says so in its `requires`.
 */
module Serialization {

  datatype Option<+T> = None | Some(value: T) {

    /** The payload of `Some`, or `default` when absent (Swift's `??`). */
    function GetOr(default: T): T {
      match this
      case Some(v) => v
      case None => default
    }
  }

  newtype uint8 = x: int | 0 <= x < 256

  /** The contents of a file, Foundation's `Data`. */
  type Bytes = seq<uint8>

  /** `Encodable.data` and `Data.decode(type:)` for one Swift type, together
      with `String(describing:)` of that type. */
  datatype Codec<!T> = Codec(typeName: string, encode: T -> Option<Bytes>, decode: Bytes -> Option<T>)

  /** What JSONEncoder/JSONDecoder guarantee and the cache depends on:
      whatever encodes decodes back to itself, and an empty file is not a
      JSON document. Together these mean a successful encoding is never
      empty, so it cannot be mistaken for the empty file that `createFile`
      writes when encoding failed. */
  ghost predicate Lawful<T(!new)>(c: Codec<T>)
    ensures Lawful(c) ==> forall v: T :: c.encode(v).Some? ==> c.encode(v).value != []
  {
    && c.decode([]).None?
    && forall v: T :: c.encode(v).Some? ==> c.decode(c.encode(v).value) == Some(v)
  }
}

=== FILE: store.dfy ===
/** The file-backed store of Helpers.swift, class `Cache`.

    The cache directory becomes a fixed path prefix and the disk a finite map
    from paths to file contents. `FileManager` calls become map updates:
    `contents(atPath:)` is a lookup, `removeItem` a deletion (always
    successful here), and `createFile` writes its contents unless the
    `WriteOutcomes` oracle says that write failed. The wall clock is the
    parameter `now`, in whole seconds since 1970.

    Every key owns two files, `<key>.json` for the value and `<key>.cache` for
    its metadata, and the functions below touch no other file.
 */
module Store {
  import opened Serialization
  import opened Metadata

  type FileSystem = map<string, Bytes>

  /** The shared store: its directory and the JSON adapters of `CacheMeta`. */
  datatype Cache = Cache(directory: string, metaCodec: Codec<CacheMeta>)

  /** What the `CacheMeta` JSON adapters promise: they round-trip, and a
      record of two numbers and a string always encodes. */
  ghost predicate WellFormed(c: Cache) {
    && Lawful(c.metaCodec)
    && forall m: CacheMeta :: c.metaCodec.encode(m).Some?
  }

  /** Whether each `createFile` of one `create` succeeds: first the
      metadata file, then the value file. */
  datatype WriteOutcomes = WriteOutcomes(metaWritten: bool, valueWritten: bool)

  /** The disk after `create`, and the `Bool` it returns. */
  datatype Written = Written(files: FileSystem, ok: bool)

  /** The disk after `read`, and the value it returns. */
  datatype ReadResult<T> = ReadResult(files: FileSystem, value: Option<T>)

  /** `resolve(filename:)`: the file's path inside the cache directory. The
      path starts with the directory, and the file name can be read back
      from what follows it. */
  function Resolve(c: Cache, filename: string): (r: string)
    ensures c.directory <= r
    ensures r[|c.directory|..] == filename
  {
    c.directory + filename
  }

  function ValuePath(c: Cache, key: string): string {
    Resolve(c, key + ".json")
  }

  function MetaPath(c: Cache, key: string): string {
    Resolve(c, key + ".cache")
  }

  /** The two files a key owns. */
  function Paths(c: Cache, key: string): set<string> {
    {ValuePath(c, key), MetaPath(c, key)}
  }

  /** `p` is missing from both disks, or present in both with equal contents. */
  ghost predicate Agree(fs: FileSystem, fs': FileSystem, p: string) {
    && (p in fs <==> p in fs')
    && (p in fs ==> fs[p] == fs'[p])
  }

  /** Every file outside `paths` is as it was. */
  ghost predicate UnchangedOutside(fs: FileSystem, fs': FileSystem, paths: set<string>) {
    forall p :: p !in paths ==> Agree(fs, fs', p)
  }

  /** The file at `path`, decoded; `None` when missing or undecodable. */
  function Decoded<T>(fs: FileSystem, path: string, codec: Codec<T>): Option<T> {
    if path in fs then codec.decode(fs[path]) else None
  }

  /** The metadata stored for `key`, when its file exists and decodes. */
  function StoredMeta(c: Cache, fs: FileSystem, key: string): Option<CacheMeta> {
    Decoded(fs, MetaPath(c, key), c.metaCodec)
  }

  /** Metadata whose expiry is a real time, after 1970, and strictly before
      `now`: the purge guard. The epoch-zero sentinel is never expired, and
      an expiry equal to `now` is not yet expired. */
  predicate Expired(m: CacheMeta, now: int)
    ensures Expired(m, now) ==> m.expires != Epoch && now - m.expires >= 1
    ensures m.expires == now ==> !Expired(m, now)
  {
    Epoch < m.expires < now
  }

  /** Metadata that no clock reading ever makes stale: exactly those whose
      expiry is not after 1970. Any other expiry is past one second later. */
  predicate NeverExpires(m: CacheMeta)
    ensures NeverExpires(m) ==> forall now :: !Expired(m, now)
    ensures !NeverExpires(m) ==> Expired(m, m.expires + 1)
  {
    m.expires <= Epoch
  }

  /** The entry for `key` is stale at `now`: its metadata file exists,
      decodes, and has expired. */
  predicate Stale(c: Cache, fs: FileSystem, key: string, now: int)
    ensures Stale(c, fs, key, now) ==> MetaPath(c, key) in fs
    ensures Stale(c, fs, key, now) ==> StoredMeta(c, fs, key).Some? && !NeverExpires(StoredMeta(c, fs, key).value)
  {
    StoredMeta(c, fs, key).Some? && Expired(StoredMeta(c, fs, key).value, now)
  }

  /** Staleness is monotone in time: an entry stale now is stale at every
      later time, until something changes its files. */
  lemma StaleStaysStale(c: Cache, fs: FileSystem, key: string, now: int, later: int)
    requires Stale(c, fs, key, now)
    requires now <= later
    ensures Stale(c, fs, key, later)
  {
  }

  /** Metadata built at `now` is stale at `later` exactly when its TTL was
      positive and its end, itself after 1970, lies strictly before `later`. */
  lemma ExpiredIff<V>(ttl: int, value: V, codec: Codec<V>, now: int, later: int)
    ensures Expired(Init(ttl, value, codec, now), later) <==> ttl > 0 && now + ttl > Epoch && now + ttl < later
  {
  }

  /** Metadata built from `TTL.infinite`'s zero seconds, or from any
      non-positive TTL, is never stale, whatever the clock says. */
  lemma NonPositiveTtlNeverExpires<V>(ttl: int, value: V, codec: Codec<V>, now: int, later: int)
    requires ttl <= 0
    ensures NeverExpires(Init(ttl, value, codec, now))
    ensures !Expired(Init(ttl, value, codec, now), later)
  {
  }

  /** `createFile(atPath:contents:)`: a `nil` payload (failed encoding)
      still creates an empty file; a failed write leaves the disk alone. */
  function CreateFile(fs: FileSystem, path: string, contents: Option<Bytes>, ok: bool): (r: FileSystem)
    ensures UnchangedOutside(fs, r, {path})
    ensures !ok ==> r == fs
    ensures ok ==> path in r
    ensures ok && contents.Some? ==> r[path] == contents.value
    ensures ok && contents.None? ==> r[path] == []
  {
    if ok then fs[path := contents.GetOr([])] else fs
  }

  /** The two file names of one key never coincide, the file names of two
      keys never coincide, and so two keys share no file. */
  lemma FileNamesDistinct(c: Cache, k1: string, k2: string)
    ensures ValuePath(c, k1) != MetaPath(c, k2)
    ensures ValuePath(c, k1) == ValuePath(c, k2) ==> k1 == k2
    ensures MetaPath(c, k1) == MetaPath(c, k2) ==> k1 == k2
    ensures k1 != k2 ==> Paths(c, k1) !! Paths(c, k2)
  {
    var v1, m2 := ValuePath(c, k1), MetaPath(c, k2);
    assert v1[|v1| - 1] == 'n';
    assert m2[|m2| - 1] == 'e';
    SuffixCancels(c.directory, k1, k2, ".json");
    SuffixCancels(c.directory, k1, k2, ".cache");
    var m1, v2 := MetaPath(c, k1), ValuePath(c, k2);
    assert m1[|m1| - 1] == 'e';
    assert v2[|v2| - 1] == 'n';
  }

  lemma SuffixCancels(d: string, a: string, b: string, suffix: string)
    ensures d + (a + suffix) == d + (b + suffix) ==> a == b
  {
    if d + (a + suffix) == d + (b + suffix) {
      var s := d + (a + suffix);
      assert |a| == |b|;
      assert a == s[|d|..|d| + |a|];
      assert b == s[|d|..|d| + |b|];
    }
  }

  /** `purgeStale(key:)`: deletes both files of `key` when its metadata is
      readable, has a real expiry, and that expiry is strictly before `now`;
      in every other case (no metadata file, undecodable metadata, the
      never-expire sentinel, an expiry not yet past) the disk is untouched. */
  function PurgeStale(c: Cache, fs: FileSystem, key: string, now: int): (r: FileSystem)
    ensures UnchangedOutside(fs, r, Paths(c, key))
    ensures Stale(c, fs, key, now) ==> r.Keys !! Paths(c, key)
    ensures !Stale(c, fs, key, now) ==> r == fs
  {
    match StoredMeta(c, fs, key)
    case None => fs
    case Some(meta) =>
      if meta.expires <= Epoch then fs
      else if meta.expires < now then fs - Paths(c, key)
      else fs
  }

  /** `createMeta(key:value:ttl:)`: replaces the metadata file of `key` with
      fresh metadata; when the write fails the old file is already gone. */
  function CreateMeta<V>(c: Cache, fs: FileSystem, key: string, value: V, codec: Codec<V>,
                         ttl: int, now: int, ok: bool): (r: FileSystem)
    ensures UnchangedOutside(fs, r, {MetaPath(c, key)})
    ensures ok <==> MetaPath(c, key) in r
    ensures WellFormed(c) && ok ==> StoredMeta(c, r, key) == Some(Init(ttl, value, codec, now))
  {
    var path := MetaPath(c, key);
    var meta := Init(ttl, value, codec, now);
    assert WellFormed(c) ==> c.metaCodec.encode(meta).Some?;
    CreateFile(fs - {path}, path, c.metaCodec.encode(meta), ok)
  }

  /** `create(key:value:ttl:)`: removes the old value file, rewrites the
      metadata, then writes the value; the result says whether the value
      file was written. Nothing is rolled back. */
  function Create<V>(c: Cache, fs: FileSystem, key: string, value: V, codec: Codec<V>,
                     ttl: int, now: int, io: WriteOutcomes): (r: Written)
    ensures r.ok == io.valueWritten
    ensures UnchangedOutside(fs, r.files, Paths(c, key))
    ensures io.valueWritten <==> ValuePath(c, key) in r.files
    ensures io.metaWritten <==> MetaPath(c, key) in r.files
    ensures io.valueWritten ==> r.files[ValuePath(c, key)] == codec.encode(value).GetOr([])
    ensures WellFormed(c) && io.metaWritten ==> StoredMeta(c, r.files, key) == Some(Init(ttl, value, codec, now))
  {
    FileNamesDistinct(c, key, key);
    var path := ValuePath(c, key);
    var withMeta := CreateMeta(c, fs - {path}, key, value, codec, ttl, now, io.metaWritten);
    Written(CreateFile(withMeta, path, codec.encode(value), io.valueWritten), io.valueWritten)
  }

  /** `read(key:)`: purges a stale entry, then decodes the value file;
      a missing or undecodable file reads as absent. */
  function Read<T>(c: Cache, fs: FileSystem, key: string, codec: Codec<T>, now: int): (r: ReadResult<T>)
    ensures r.files == PurgeStale(c, fs, key, now)
    ensures Stale(c, fs, key, now) ==> r.value.None?
    ensures !Stale(c, fs, key, now) ==> r.value == Decoded(fs, ValuePath(c, key), codec)
  {
    var files := PurgeStale(c, fs, key, now);
    ReadResult(files, Decoded(files, ValuePath(c, key), codec))
  }

  /* ----- Purging ----- */

  /** With readable metadata, purging removes the entry exactly when its
      expiry is after 1970 and strictly before `now`; an entry whose expiry
      is `now` itself survives. */
  lemma PurgeRemovesIffExpired(c: Cache, fs: FileSystem, key: string, now: int, m: CacheMeta)
    requires StoredMeta(c, fs, key) == Some(m)
    ensures MetaPath(c, key) !in PurgeStale(c, fs, key, now) <==> Epoch < m.expires < now
    ensures m.expires == now ==> PurgeStale(c, fs, key, now) == fs
  {
  }

  /** Purging twice at one instant is purging once. */
  lemma PurgeIdempotent(c: Cache, fs: FileSystem, key: string, now: int)
    ensures PurgeStale(c, PurgeStale(c, fs, key, now), key, now) == PurgeStale(c, fs, key, now)
  {
  }

  /* ----- Reading ----- */

  /** What `read` returns depends only on the two files of the key. */
  lemma ReadDependsOnOwnFiles<T>(c: Cache, fs1: FileSystem, fs2: FileSystem, key: string,
                                                    codec: Codec<T>, now: int)
    requires Agree(fs1, fs2, ValuePath(c, key)) && Agree(fs1, fs2, MetaPath(c, key))
    ensures Read(c, fs1, key, codec, now).value == Read(c, fs2, key, codec, now).value
    ensures Agree(Read(c, fs1, key, codec, now).files, Read(c, fs2, key, codec, now).files, ValuePath(c, key))
    ensures Agree(Read(c, fs1, key, codec, now).files, Read(c, fs2, key, codec, now).files, MetaPath(c, key))
  {
    assert StoredMeta(c, fs1, key) == StoredMeta(c, fs2, key);
    assert Stale(c, fs1, key, now) == Stale(c, fs2, key, now);
  }

  /** The type tag and the recorded TTL are never consulted: two disks whose
      value files agree and whose metadata share an expiry read alike. */
  lemma ValueTypeNeverConsulted<T>(c: Cache, fs1: FileSystem, fs2: FileSystem, key: string,
                                                      codec: Codec<T>, now: int)
    requires Agree(fs1, fs2, ValuePath(c, key))
    requires StoredMeta(c, fs1, key).Some? && StoredMeta(c, fs2, key).Some?
    requires StoredMeta(c, fs1, key).value.expires == StoredMeta(c, fs2, key).value.expires
    ensures Read(c, fs1, key, codec, now).value == Read(c, fs2, key, codec, now).value
  {
    assert Stale(c, fs1, key, now) == Stale(c, fs2, key, now);
  }

  /** Reading twice at one instant returns the same value and leaves the disk
      as the first read left it. */
  lemma ReadIdempotent<T>(c: Cache, fs: FileSystem, key: string, codec: Codec<T>, now: int)
    ensures Read(c, Read(c, fs, key, codec, now).files, key, codec, now) == Read(c, fs, key, codec, now)
  {
    PurgeIdempotent(c, fs, key, now);
  }

  /** Reading an entry that is not stale changes nothing on disk. */
  lemma FreshReadKeepsFiles<T>(c: Cache, fs: FileSystem, key: string, codec: Codec<T>, now: int)
    requires !Stale(c, fs, key, now)
    ensures Read(c, fs, key, codec, now).files == fs
  {
  }

  /* ----- Writing then reading ----- */

  /** After `create` the metadata of `key` is what `createMeta` wrote, or
      absent: in both cases staleness follows the fresh metadata. */
  lemma StaleAfterCreate<V>(c: Cache, fs: FileSystem, key: string, v: V, codec: Codec<V>,
                                               ttl: int, now: int, io: WriteOutcomes, later: int)
    requires WellFormed(c)
    ensures Stale(c, Create(c, fs, key, v, codec, ttl, now, io).files, key, later)
            <==> io.metaWritten && Expired(Init(ttl, v, codec, now), later)
  {
  }

  /** A value written with a non-positive TTL (`infinite`, `seconds(0)`)
      reads back at any later time. */
  lemma RoundTripNeverExpires<V(!new)>(c: Cache, fs: FileSystem, key: string, v: V, codec: Codec<V>,
                                                          ttl: int, now: int, io: WriteOutcomes, later: int)
    requires WellFormed(c) && Lawful(codec)
    requires codec.encode(v).Some?
    requires io.valueWritten
    requires ttl <= 0
    ensures Read(c, Create(c, fs, key, v, codec, ttl, now, io).files, key, codec, later).value == Some(v)
  {
    StaleAfterCreate(c, fs, key, v, codec, ttl, now, io, later);
  }

  /** A value written with a positive TTL reads back at any time up to and
      including the end of its TTL. */
  lemma RoundTripWithinTtl<V(!new)>(c: Cache, fs: FileSystem, key: string, v: V, codec: Codec<V>,
                                                       ttl: int, now: int, io: WriteOutcomes, later: int)
    requires WellFormed(c) && Lawful(codec)
    requires codec.encode(v).Some?
    requires io.valueWritten
    requires ttl > 0 && later <= now + ttl
    ensures Read(c, Create(c, fs, key, v, codec, ttl, now, io).files, key, codec, later).value == Some(v)
  {
    StaleAfterCreate(c, fs, key, v, codec, ttl, now, io, later);
  }

  /** When the metadata was written and its end is after 1970, a read after
      the TTL has run out misses and leaves neither file of the key on disk. */
  lemma ExpiredReadPurges<V, T>(c: Cache, fs: FileSystem, key: string, v: V, codec: Codec<V>,
                                                   ttl: int, now: int, io: WriteOutcomes, later: int, reader: Codec<T>)
    requires WellFormed(c)
    requires io.metaWritten
    requires ttl > 0 && now + ttl > Epoch && later > now + ttl
    ensures Read(c, Create(c, fs, key, v, codec, ttl, now, io).files, key, reader, later).value.None?
    ensures Read(c, Create(c, fs, key, v, codec, ttl, now, io).files, key, reader, later).files.Keys !! Paths(c, key)
  {
    StaleAfterCreate(c, fs, key, v, codec, ttl, now, io, later);
  }

  /** A positive TTL whose end falls at or before 1970 is read as "never"
      by the purge guard, so such a value is never purged. */
  lemma PreEpochExpiryNeverPurges<V(!new)>(c: Cache, fs: FileSystem, key: string, v: V, codec: Codec<V>,
                                                              ttl: int, now: int, io: WriteOutcomes, later: int)
    requires WellFormed(c) && Lawful(codec)
    requires codec.encode(v).Some?
    requires io.valueWritten
    requires ttl > 0 && now + ttl <= Epoch
    ensures Read(c, Create(c, fs, key, v, codec, ttl, now, io).files, key, codec, later).value == Some(v)
  {
    StaleAfterCreate(c, fs, key, v, codec, ttl, now, io, later);
  }

  /** When the metadata write fails but the value write succeeds, nothing
      can ever purge the value: it reads back forever. */
  lemma LostMetaPinsValue<V(!new)>(c: Cache, fs: FileSystem, key: string, v: V, codec: Codec<V>,
                                                      ttl: int, now: int, io: WriteOutcomes, later: int)
    requires WellFormed(c) && Lawful(codec)
    requires codec.encode(v).Some?
    requires io.valueWritten && !io.metaWritten
    ensures Read(c, Create(c, fs, key, v, codec, ttl, now, io).files, key, codec, later).value == Some(v)
  {
    StaleAfterCreate(c, fs, key, v, codec, ttl, now, io, later);
  }

  /** When the value write fails, `create` returns false, the old value is
      gone, and every later read misses; the new metadata is in place when
      its own write succeeded. */
  lemma FailedValueWrite<V, T>(c: Cache, fs: FileSystem, key: string, v: V, codec: Codec<V>,
                                                  ttl: int, now: int, io: WriteOutcomes, later: int, reader: Codec<T>)
    requires WellFormed(c)
    requires !io.valueWritten
    ensures !Create(c, fs, key, v, codec, ttl, now, io).ok
    ensures ValuePath(c, key) !in Create(c, fs, key, v, codec, ttl, now, io).files
    ensures io.metaWritten ==> StoredMeta(c, Create(c, fs, key, v, codec, ttl, now, io).files, key) == Some(Init(ttl, v, codec, now))
    ensures Read(c, Create(c, fs, key, v, codec, ttl, now, io).files, key, reader, later).value.None?
  {
    var files := Create(c, fs, key, v, codec, ttl, now, io).files;
    assert ValuePath(c, key) !in PurgeStale(c, files, key, later);
  }

  /** A value that does not encode still leaves an (empty) value file and
      `create` reports success, yet every read of it misses. */
  lemma UnencodableValueReadsAbsent<V(!new)>(c: Cache, fs: FileSystem, key: string, v: V, codec: Codec<V>,
                                                                ttl: int, now: int, io: WriteOutcomes, later: int)
    requires WellFormed(c) && Lawful(codec)
    requires codec.encode(v).None?
    requires io.valueWritten
    ensures Create(c, fs, key, v, codec, ttl, now, io).ok
    ensures Read(c, Create(c, fs, key, v, codec, ttl, now, io).files, key, codec, later).value.None?
  {
    var files := Create(c, fs, key, v, codec, ttl, now, io).files;
    var purged := PurgeStale(c, files, key, later);
    assert ValuePath(c, key) in purged ==> purged[ValuePath(c, key)] == [];
  }

  /** A second `create` replaces the first entirely: the value read back is
      the second one, and the metadata records the second TTL. */
  lemma Overwrite<V(!new)>(c: Cache, fs: FileSystem, key: string, codec: Codec<V>,
                                              v1: V, ttl1: int, now1: int, io1: WriteOutcomes,
                                              v2: V, ttl2: int, now2: int, io2: WriteOutcomes, later: int)
    requires WellFormed(c) && Lawful(codec)
    requires codec.encode(v2).Some?
    requires io2.valueWritten && io2.metaWritten
    requires ttl2 <= 0 || later <= now2 + ttl2
    ensures var first := Create(c, fs, key, v1, codec, ttl1, now1, io1).files;
            var second := Create(c, first, key, v2, codec, ttl2, now2, io2).files;
            && StoredMeta(c, second, key) == Some(Init(ttl2, v2, codec, now2))
            && StoredMeta(c, second, key).value.ttl == ttl2
            && Read(c, second, key, codec, later).value == Some(v2)
  {
    var first := Create(c, fs, key, v1, codec, ttl1, now1, io1).files;
    if ttl2 <= 0 {
      RoundTripNeverExpires(c, first, key, v2, codec, ttl2, now2, io2, later);
    } else {
      RoundTripWithinTtl(c, first, key, v2, codec, ttl2, now2, io2, later);
    }
  }

  /* ----- Isolation between keys ----- */

  /** `create` on one key leaves another key's files, and so what a read of
      that key returns, unchanged. */
  lemma CreateLeavesOtherKeys<V, T>(c: Cache, fs: FileSystem, key: string, v: V, codec: Codec<V>,
                                                       ttl: int, now: int, io: WriteOutcomes,
                                                       other: string, reader: Codec<T>, later: int)
    requires key != other
    ensures Agree(fs, Create(c, fs, key, v, codec, ttl, now, io).files, ValuePath(c, other))
    ensures Agree(fs, Create(c, fs, key, v, codec, ttl, now, io).files, MetaPath(c, other))
    ensures Read(c, Create(c, fs, key, v, codec, ttl, now, io).files, other, reader, later).value
            == Read(c, fs, other, reader, later).value
  {
    FileNamesDistinct(c, key, other);
    var files := Create(c, fs, key, v, codec, ttl, now, io).files;
    ReadDependsOnOwnFiles(c, files, fs, other, reader, later);
  }

  /** `read` on one key leaves another key's files, and so what a read of
      that key returns, unchanged. */
  lemma ReadLeavesOtherKeys<T, U>(c: Cache, fs: FileSystem, key: string, codec: Codec<T>, now: int,
                                                     other: string, reader: Codec<U>, later: int)
    requires key != other
    ensures Agree(fs, Read(c, fs, key, codec, now).files, ValuePath(c, other))
    ensures Agree(fs, Read(c, fs, key, codec, now).files, MetaPath(c, other))
    ensures Read(c, Read(c, fs, key, codec, now).files, other, reader, later).value
            == Read(c, fs, other, reader, later).value
  {
    FileNamesDistinct(c, key, other);
    var files := Read(c, fs, key, codec, now).files;
    ReadDependsOnOwnFiles(c, files, fs, other, reader, later);
  }
}

=== FILE: ttl.dfy ===
/** The symbolic durations of TTL.swift and their `interval` in seconds.

    The source multiplies Swift `Int`s left to right, and Swift traps when a
    product overflows. `Int` is taken to be 64 bits wide, as on 64-bit
    platforms. `Interval` therefore yields `None` exactly
    when the source would trap, and otherwise the number of seconds. The final
    conversion to a floating-point `TimeInterval` is not modelled: intervals
    are whole seconds.
 */
module TimeToLive {
  import opened Serialization

  const MinInt: int := -0x8000_0000_0000_0000
  const MaxInt: int := 0x7FFF_FFFF_FFFF_FFFF

  predicate InRange(x: int) {
    MinInt <= x <= MaxInt
  }

  /** Swift's `Int` on a 64-bit platform. */
  type Int = x: int | InRange(x)

  datatype TTL =
    | Infinite
    | Seconds(n: Int)
    | Minutes(n: Int)
    | Hours(n: Int)
    | Days(n: Int)
    | Weeks(n: Int)
    | Months(n: Int)

  /** How many units the duration names; `infinite` names none. */
  function Count(t: TTL): int {
    if t.Infinite? then 0 else t.n
  }

  /** Seconds in one unit of each variant. A month is taken as exactly four
      weeks, not a calendar month; `infinite` has no unit. */
  function UnitSeconds(t: TTL): nat {
    match t
    case Infinite => 0
    case Seconds(_) => 1
    case Minutes(_) => 60
    case Hours(_) => 3600
    case Days(_) => 86400
    case Weeks(_) => 604800
    case Months(_) => 2419200
  }

  /** Swift's trapping `*` on `Int`, continuing a chain of products:
      `None` is the overflow trap. */
  function Times(a: Option<int>, b: int): (r: Option<int>)
    ensures a.None? ==> r.None?
    ensures r.Some? <==> a.Some? && InRange(a.value * b)
    ensures r.Some? ==> InRange(r.value) && r.value == a.value * b
  {
    match a
    case None => None
    case Some(x) => if InRange(x * b) then Some(x * b) else None
  }

  /** `TTL.interval`: the duration in seconds, or `None` where the source's
      product overflows and traps. */
  function Interval(t: TTL): (r: Option<int>)
    ensures r.Some? <==> InRange(Count(t) * UnitSeconds(t))
    ensures r.Some? ==> r.value == Count(t) * UnitSeconds(t)
  {
    match t
    case Infinite => Some(0)
    case Seconds(n) => Some(n)
    case Minutes(n) => Times(Some(n), 60)
    case Hours(n) => Times(Times(Some(n), 60), 60)
    case Days(n) => Times(Times(Times(Some(n), 60), 60), 24)
    case Weeks(n) => Times(Times(Times(Times(Some(n), 60), 60), 24), 7)
    case Months(n) => Times(Times(Times(Times(Times(Some(n), 60), 60), 24), 7), 4)
  }

  /** `infinite` is zero seconds, the value the metadata reads as "never". */
  lemma InfiniteIsZero()
    ensures Interval(Infinite) == Some(0)
  {
  }

  /** Each finite variant scales its count by its unit. */
  lemma IntervalOfEachVariant(n: Int)
    ensures Interval(Seconds(n)) == Some(n)
    ensures InRange(n * 60) ==> Interval(Minutes(n)) == Some(60 * n)
    ensures InRange(n * 3600) ==> Interval(Hours(n)) == Some(3600 * n)
    ensures InRange(n * 86400) ==> Interval(Days(n)) == Some(86400 * n)
    ensures InRange(n * 604800) ==> Interval(Weeks(n)) == Some(604800 * n)
    ensures InRange(n * 2419200) ==> Interval(Months(n)) == Some(2419200 * n)
  {
  }

  /** A week is seven days and a month four weeks, whenever the longer one
      does not trap; so a month is 28 days. */
  lemma WeeksAndMonths(n: Int)
    ensures Interval(Weeks(n)).Some? ==> Interval(Days(n)).Some? && Interval(Weeks(n)).value == 7 * Interval(Days(n)).value
    ensures Interval(Months(n)).Some? ==> Interval(Weeks(n)).Some? && Interval(Months(n)).value == 4 * Interval(Weeks(n)).value
    ensures Interval(Months(n)).Some? ==> Interval(Months(n)).value == 28 * Interval(Days(n)).value
  {
  }

  /** Thirty minutes is 1800 seconds. */
  lemma ThirtyMinutes()
    ensures Interval(Minutes(30)) == Some(1800)
  {
  }

  /** `months(n)` traps exactly when the count is too large for its unit,
      on either side of zero; the bound is 3812571113117 months. */
  lemma MonthsOverflow(n: Int)
    ensures Interval(Months(n)).Some? <==> -(MaxInt / 2419200) <= n <= MaxInt / 2419200
    ensures MaxInt / 2419200 == 3812571113117
  {
  }

  /** A non-negative count never yields a negative interval. */
  lemma IntervalNonNegative(t: TTL)
    requires Count(t) >= 0
    requires Interval(t).Some?
    ensures Interval(t).value >= 0
  {
  }

  /** Zero seconds arise from `infinite` or a zero count, and from nothing else. */
  lemma IntervalZeroIff(t: TTL)
    requires Interval(t).Some?
    ensures Interval(t).value == 0 <==> t.Infinite? || t.n == 0
  {
  }

  /** Within one variant the interval grows with the count. */
  lemma IntervalMonotone(t: TTL, u: TTL)
    requires UnitSeconds(t) == UnitSeconds(u)
    requires Count(t) <= Count(u)
    requires Interval(t).Some? && Interval(u).Some?
    ensures Interval(t).value <= Interval(u).value
  {
  }
}
